=== FILE: README.md ===
# Carousel cursor, onboarding steps and onboarding e-mail — a Dafny model

This project models the discrete logic of the site script `script.js`. It covers three parts.

- **The looping reviews carousel** (`horizontalLoop`). Each item has a time anchor on a closed timeline. `getClosest` finds the anchor nearest the playhead using a wrap-around distance. `toIndex` takes the shorter way round the loop, wraps the index and corrects the target time across the loop seam. `next`, `previous`, `current` and `closestIndex` manage the cursor. The `onUpdate` handler reports a new active index to `onChange` only when the index changes. The slider's `onDrag` handler wraps the dragged progress back into the loop.
- **The onboarding form's step machine.** This covers `currentStep` over 4 steps, `nextStep`, `previousStep`, the auto-advance guard, the two validity checks `isStepValid` and `validateCurrentStep`, and the view `showStep` derives from the step.
- **`generateEmailContent`.** This is the plain-text e-mail built from the form. It covers the goal bullets, the two code-to-text lookups, the empty-message default and the final `trim()`.

Times and progress are exact `real`s. Indices are `int`s. The anchor times and the loop duration are inputs, not DOM measurements. The selection state is an abstract record: the checked goals in page order, an optional experience and an optional training preference. The e-mail's timestamp is an input string.

Files and modules:

| file | module | models |
|---|---|---|
| `common.dfy` | `Common` | `Option`, absolute values, `gsap.utils.wrap(0, d)` on reals (`Wrap`) |
| `nearest.dfy` | `Nearest` | `getClosest` and a reference definition of its answer |
| `horizontal_loop.dfy` | `HorizontalLoop` | cursor state, `toIndex`, `closestIndex`, `current`, `next`, `previous`, `onUpdate` |
| `testimonial_drag.dfy` | `TestimonialDrag` | the `onDrag` progress wrap |
| `decimal_text.dfy` | `DecimalText` | how `${step}` prints a step number |
| `onboarding.dfy` | `Onboarding` | the step machine, both validity checks, `showStep`'s view |
| `onboarding_email.dfy` | `OnboardingEmail` | `generateEmailContent`, `String.prototype.trim`/`replace`, `split`/`join` |

Four behaviours of the code are worth knowing, and the model keeps them.

- **Ties in `getClosest`.** The loop scans downward with a strict `<`, so the HIGHEST tied index wins. `Nearest.TieGoesToHighestIndex` shows that anchors 0, 2, 4, 6 on a loop of 8, with the playhead at 7, give index 3 (anchor 6), not index 0.
- **Exact half-loop requests in `toIndex`.** A request is adjusted only when it is MORE than half the loop away, because the test is `>`. So a request exactly half the loop away keeps the direction the caller asked for (`HorizontalLoop.ShortestPath`, last ensures).
- **`indexIsDirty`.** The script never sets it to true. The flag is modelled as a field anyway, so `current()` follows the code in both cases.
- **Snapping after a drag near the seam.** `onDragEnd` calls `toIndex(closestIndex(true))`, so the requested index is already curIndex and the seam test is skipped: the target is the raw anchor. Released at 7.5 on a loop of 8 with anchors 0, 2, 4, 6, the snap commits index 0 and tweens backwards from 7.5 to 0 across items 3, 2 and 1, so `onChange` reports 3, 2, 1, 0 along the way (`HorizontalLoop.SnapNearSeamGoesLongWay`, with `HorizontalLoop.NotificationsAreChanges`).

## Model

| member | source | states |
|---|---|---|
| Common.Wrap | script.js:1271 | `timeWrap` returns a time in [0, duration) |
| Common.WrapUnique | script.js:1271 | the wrapped time is the unique representative t − m·duration in [0, duration), so wrapping differs from t by whole loops only |
| Nearest.CircularDistance | script.js:1246-1249 | the folded distance is the smaller of the direct distance and the distance the other way round; for anchors within one loop of the playhead it is between 0 and half the loop |
| Nearest.Scan | script.js:1243-1256 | loop invariant of the downward scan: either nothing beat the running minimum and the index is unchanged, or the result is strictly below it, no farther than any scanned anchor, and strictly nearer than every scanned anchor above it |
| Nearest.GetClosest | script.js:1242-1257 | an empty list gives 0; otherwise the index is in range; if any anchor is within the 1e10 sentinel, the result is a nearest anchor and the highest-indexed of those tied; if none is, the result is 0 |
| Nearest.NearestUnique | script.js:1252-1255 | the strict `<` tie rule leaves exactly one admissible answer |
| Nearest.GetClosestIsNearest | script.js:1242-1257 | both directions: getClosest returns k exactly when k is the highest-indexed nearest anchor (the reference definition) |
| Nearest.TieGoesToHighestIndex | script.js:1243-1256 | anchors 0,2,4,6, loop 8, playhead 7: the tie between anchors 0 and 6 resolves to index 3 |
| HorizontalLoop.ShortestPath | script.js:1291 | the adjusted index is the request, or one loop nearer, and congruent to it; for any request within one loop of curIndex it ends at most half the loop away; a request already within half the loop is kept |
| HorizontalLoop.SeamTarget | script.js:1294-1296 | the target is the anchor or the anchor moved by one loop; a request for curIndex itself keeps the anchor; with anchor and playhead in [0, duration), moving forward the target is ahead of the playhead by at most one loop, and moving back it is not ahead and less than one loop behind |
| HorizontalLoop.ToIndex | script.js:1289-1304 | the new curIndex is in [0, n) and equals the request modulo n; for a request within one loop of the old index, the adjusted request is at most n/2 from it (a farther request is moved by one loop only, and stays farther); the target time is the new item's anchor, possibly moved by one loop; with duration 0 the playhead is set to the target wrapped into [0, duration); otherwise the playhead is untouched and the time modifier is attached exactly when the target lies outside [0, duration]; the dirty flag is unchanged, and lastIndex is left to the separate `OnUpdate` step |
| HorizontalLoop.ToIndexDirection | script.js:1294-1296 | with the anchors and playhead in [0, duration): moving forward, the target is strictly ahead of the playhead and at most one loop ahead; moving back, it is not ahead and less than one loop behind; staying, it is the anchor itself, so no whole loop is ever added without need |
| HorizontalLoop.SeamTargetWraps | script.js:1294-1296 | the seam correction changes the target by at most one loop, so wrapping it gives back the anchor |
| HorizontalLoop.ToIndexLandsOnAnchor | script.js:1294-1303 | the target wraps to the new item's anchor, and an instant move sets the playhead exactly onto that anchor |
| HorizontalLoop.SnapNearSeamGoesLongWay | script.js:1100-1101 | anchors 0, 2, 4, 6, loop 8, released at 7.5: the snap commits index 0 and toIndex targets 0 by an unwrapped tween, the long way back |
| HorizontalLoop.ClosestIndex | script.js:1307-1314 | the result is a nearest anchor under the tie rule; with commit it becomes curIndex and the dirty flag clears; without commit nothing changes |
| HorizontalLoop.Current | script.js:1315 | a clean cursor is returned as is with its curIndex; a dirty one gets closestIndex(true): the nearest anchor under the tie rule, committed as curIndex; afterwards the cursor is clean and the result is its curIndex |
| HorizontalLoop.InitialIsSettled | script.js:1212-1213 | the state horizontalLoop starts from (index 0, clean) is in range, current() returns 0 without change, and next()/previous() go to items 1 mod n and n − 1 |
| HorizontalLoop.Next | script.js:1316 | curIndex becomes (cur + 1) mod n, from the freshly resolved index when dirty; includes n = 1 |
| HorizontalLoop.Previous | script.js:1317 | curIndex becomes (cur − 1) mod n, from the freshly resolved index when dirty; includes n = 1 |
| HorizontalLoop.PreviousUndoesNext | script.js:1316-1317 | previous() after next() returns to the same index |
| HorizontalLoop.OnUpdate | script.js:1195-1201 | onChange fires exactly when the closest index differs from lastIndex; lastIndex then equals the reported index |
| HorizontalLoop.OnUpdateSettles | script.js:1195-1201 | a second update at the same playhead fires nothing |
| HorizontalLoop.Notifications | script.js:1195-1201 | over a run of frames: at most one report per frame; two consecutive reports always differ; the first differs from the prior lastIndex; the last equals the final lastIndex; no report leaves lastIndex unchanged; after a non-empty run lastIndex is the last frame's closest index |
| HorizontalLoop.NotificationsAreChanges | script.js:1195-1201 | the reports are exactly the frames' closest indices with each run of repeats reported once and a leading run equal to the prior lastIndex dropped |
| HorizontalLoop.SingleNotification | script.js:1195-1201 | if every frame's closest index is k, k is reported once, or never if it was already the last reported |
| TestimonialDrag.WrapProgress | script.js:1082-1088 | the wrap moves progress by at most one loop, keeps values already in [0, 1], and brings anything in [−1, 2] into [0, 1] |
| TestimonialDrag.DragProgress | script.js:1078-1090 | the new progress is the start minus 0.3 per container width dragged, corrected by at most one loop; from [0, 1] a drag of at most width/0.3 pixels stays in [0, 1]; no movement keeps the progress |
| TestimonialDrag.DragStaysInLoop | script.js:1078-1090 | a drag from progress in [0, 1] by less than width/0.3 pixels yields progress in [0, 1], within one loop of the unwrapped value |
| DecimalText.Decimal | script.js:705 | a step number prints as digits, without a leading zero |
| DecimalText.ValueOfDecimal | script.js:705 | reading the printed digits back gives the number |
| Onboarding.IsStepValid | script.js:822-839 | only steps 1, 2 and 3 can fail; any other step is valid |
| Onboarding.StepValidityIsLocal | script.js:822-839 | step 1's validity reads only the goals, step 2's only the experience, step 3's only the training preference |
| Onboarding.ValidateCurrentStep | script.js:841-870 | it passes exactly when isStepValid holds for that step (the two checks decide identically); a failure names the current step, which is 1, 2 or 3, with a non-empty message |
| Onboarding.NextStep | script.js:726-731 | the step goes up by exactly one iff the step's requirement holds (a goal at step 1, an experience at 2, a preference at 3, always otherwise); otherwise it is unchanged; there is no upper cap |
| Onboarding.NextStepHasNoCap | script.js:726-731 | nextStep from step 4 goes to step 5 |
| Onboarding.PreviousStep | script.js:765-770 | the step drops by one exactly when it is above 1, so a started form never goes below step 1 |
| Onboarding.AutoAdvance | script.js:734-763 | the callback advances only when a radio changed or any box of the changed checkbox's group is checked after the change (so unchecking one goal while another stays checked also advances), the step is below 4 and the step is valid; at step 4 or beyond nothing changes |
| Onboarding.ShowStep | script.js:665-716 | on desktop, the slide offset is −25% per step past the first; the progress width is step/4 of 100%; previous is shown except on step 1; next is shown except on step 4, with submit shown exactly when next is hidden; the text is "Stap ", the step's digits and " van 4" |
| Onboarding.ApplyKeepsStepInRange | script.js:709-712 | with a click landing only on a displayed button, any one action, including the reset after a submission, keeps a form on steps 1..4 within 1..4 |
| Onboarding.RunKeepsStepInRange | script.js:743-756 | any sequence of clicks and auto-advances from a started form keeps the step in 1..4, because only the hidden next button and the auto-advance guard stop nextStep's uncapped increment |
| OnboardingEmail.UpperAscii | script.js:918 | a lower-case ASCII letter becomes its upper-case letter; any other character is unchanged |
| OnboardingEmail.ReplaceFirst | script.js:918 | `replace('-', ' ')` changes exactly the first hyphen, keeps the length, and is the identity when there is none |
| OnboardingEmail.GoalLine | script.js:918 | a line is "• ", the goal's first character upper-cased, then the rest with only its first hyphen made a space; no newline is introduced |
| OnboardingEmail.SplitJoin | script.js:918 | `join('\n')` loses nothing: splitting the joined lines gives them back when none contains a newline |
| OnboardingEmail.GoalsListLines | script.js:918 | the goals list has one line per goal, in order, each that goal's bullet line |
| OnboardingEmail.Describe | script.js:942-945 | a known code renders as its mapped text; an unknown code passes through unchanged; an absent value prints as `undefined` |
| OnboardingEmail.DescribeIdentifiesCode | script.js:920-945 | with distinct non-empty texts, different codes render differently, unless a code is itself one of the texts |
| OnboardingEmail.LookupsAreDescriptive | script.js:920-930 | both lookup tables have distinct, non-empty texts |
| OnboardingEmail.MessageText | script.js:948 | an empty personal message renders as `Geen bericht toegevoegd.`; any other message is kept as is |
| OnboardingEmail.TrimStart | script.js:952 | the trim drops only a leading run of white space and stops at the first visible character |
| OnboardingEmail.TrimEnd | script.js:952 | the trim drops only a trailing run of white space and stops at the last visible character |
| OnboardingEmail.TrimBorder | script.js:952 | trimming a visible text inside a blank border removes exactly the border |
| OnboardingEmail.GenerateEmailContent | script.js:917-953 | the e-mail is the template's lines from the title to the signature joined by newlines; the trim removes only the template's empty first line and indented last line, never any of the form's data |

## Left out

- WebGL hero, cursor, scroll, parallax and page-transition effects: these are rendering and third-party animation, not discrete logic.
- `populateWidths`, `populateTimeline`, `populateOffsets` and `refresh`: they measure the DOM and build GSAP tweens. Their outputs (anchor times and duration) are inputs of `HorizontalLoop.Geometry`.
- The `onUpdate` that a playhead change sets off: an instant `toIndex` (`tl.time(...)`) and every tween frame run the timeline's `onUpdate`, which may change lastIndex and call `onChange`. The model runs it as the separate step `HorizontalLoop.OnUpdate` (or `Notifications` over frames) after `HorizontalLoop.ToIndex`, not inside it.
- The tween itself: easing, frame-by-frame interpolation, `overwrite`/`killTweensOf`, and `onReverseComplete`. A tween is represented only by its target time and whether the time modifier is attached.
- Draggable inertia, click-through detection, auto-play timers and the settle delays: these are timer and pointer plumbing. An auto-advance callback is modelled at the moment it runs, with the form state it then sees.
- Error-message display and hiding (`showErrorMessage`, `hideErrorMessage`, `setupFormValidation`): these are timer-driven DOM effects. Only the message chosen by `validateCurrentStep` is modelled.
- Mobile card show/hide in `showStep`: this is DOM class toggling. On mobile no slide offset is set; `Onboarding.ShowStep`'s offset is the desktop one.
- `startForm` and `initOnboardingForm` set the step to 1 and call `showStep`. A started form is the precondition `1 <= step` of `Onboarding.ApplyKeepsStepInRange` and `Onboarding.RunKeepsStepInRange`. `startForm` also installs the auto-advance listeners, and repeated calls stack them; any number of extra callbacks is a sequence of `Auto` actions, which those lemmas cover. `initOnboardingForm` also installs `setupFormValidation` (DOM messages, left out above) and the submit handler. That handler's delayed reset (script.js:999-1001) is the action `SubmitReset`: it clears the selection and returns to step 1, which keeps the step in 1..4.
- The mailto link, `encodeURIComponent`, `toLocaleString` and `formatFormData`'s DOM reads: these are foreign calls. The timestamp and field values are inputs.
- `convert_images.py`: this is image I/O.
- Common.Wrap: exact reals replace floating point, so rounding in `gsap.utils.wrap` and in time comparisons is not modelled. It requires a positive duration; with duration 0 the source divides by zero.
- TestimonialDrag.DragStaysInLoop: requires a container of positive width; with width 0 the source divides by zero. Drags longer than width/0.3 pixels are wrapped only once, exactly as the source does, and the lemma says nothing about them.
- HorizontalLoop.ToIndex: requires at least one item and a positive duration. The caller returns early on zero items and `horizontalLoop` reads `items[0]`.
- OnboardingEmail.UpperAscii: upper-cases ASCII letters only. `toUpperCase` on other scripts (including changes of length such as ß → SS) is not modelled.
- OnboardingEmail.Describe: lookups of inherited object keys (such as `constructor`) are not modelled; the tables are plain maps.
- OnboardingEmail.GoalsListLines: requires at least one goal with no newline inside, since `split` cannot tell an empty list from one empty goal.

=== FILE: common.dfy ===
/** Small helpers shared by the carousel and form models. */
module Common {

  /** A value that may be absent: an unchecked radio group, an undefined field. */
  datatype Option<+T> = None | Some(value: T)

  function Abs(x: real): (r: real)
    ensures r >= 0.0
    ensures r == x || r == -x
  {
    if x < 0.0 then -x else x
  }

  function IntAbs(x: int): (r: nat)
    ensures r == x || r == -x
  {
    if x < 0 then -x else x
  }

  /** Euclidean remainder is determined by any decomposition a == q*n + m
      with 0 <= m < n. */
  lemma ModUnique(a: int, n: int, q: int, m: int)
    requires n > 0 && 0 <= m < n && a == q * n + m
    ensures a % n == m
  {
    var q', m' := a / n, a % n;
    assert a == q' * n + m';
    assert (q - q') * n == m' - m;
    if q > q' {
      IntMulMonotone(1, q - q', n);
    } else if q < q' {
      IntMulMonotone(1, q' - q, n);
    }
  }

  lemma IntMulMonotone(a: int, b: int, n: int)
    requires a <= b && n > 0
    ensures a * n <= b * n
  {
    assert b * n - a * n == (b - a) * n;
  }

  /** Adding or removing one period leaves the remainder unchanged. */
  lemma ModShift(x: int, n: int, k: int)
    requires n > 0 && (k == 1 || k == -1 || k == 0)
    ensures (x + k * n) % n == x % n
  {
    var q := x / n;
    assert x == q * n + x % n;
    assert x + k * n == (q + k) * n + x % n;
    ModUnique(x + k * n, n, q + k, x % n);
  }

  /** gsap.utils.wrap(0, period) applied to a time: the representative of t
      in [0, period) that differs from t by a whole number of periods. */
  function Wrap(t: real, period: real): (r: real)
    requires period > 0.0
    ensures 0.0 <= r < period
  {
    var k := (t / period).Floor;
    FloorBounds(t, period);
    t - k as real * period
  }

  lemma FloorBounds(t: real, period: real)
    requires period > 0.0
    ensures (t / period).Floor as real * period <= t
    ensures t < ((t / period).Floor as real + 1.0) * period
  {
    var q := t / period;
    var f := q.Floor as real;
    assert f <= q < f + 1.0;
    DivMul(t, period);
    MulMonotone(f, q, period);
    MulStrictMonotone(q, f + 1.0, period);
    assert t < (f + 1.0) * period;
  }

  lemma DivMul(t: real, period: real)
    requires period > 0.0
    ensures (t / period) * period == t
  {
  }

  lemma MulMonotone(a: real, b: real, p: real)
    requires a <= b && p > 0.0
    ensures a * p <= b * p
  {
    assert b * p - a * p == (b - a) * p;
  }

  lemma MulStrictMonotone(a: real, b: real, p: real)
    requires a < b && p > 0.0
    ensures a * p < b * p
  {
    assert b * p - a * p == (b - a) * p;
  }

  /** Wrap is characterised by its range: any t - m*period that lands in
      [0, period) is the wrapped value. */
  lemma WrapUnique(t: real, period: real, m: int)
    requires period > 0.0
    requires 0.0 <= t - m as real * period < period
    ensures Wrap(t, period) == t - m as real * period
  {
    var q := t / period;
    var mr := m as real;
    DivMul(t, period);
    assert (mr + 1.0) * period == mr * period + period;
    if q < mr {
      MulStrictMonotone(q, mr, period);
      assert false;
    }
    if mr + 1.0 <= q {
      MulMonotone(mr + 1.0, q, period);
      assert false;
    }
    assert q.Floor == m;
  }
}

=== FILE: decimal_text.dfy ===
/** Decimal rendering of a non-negative integer, as a template literal
    `${n}` prints it. */
module DecimalText {

  predicate IsDigit(c: char)
  {
    '0' <= c <= '9'
  }

  function DigitChar(d: nat): (c: char)
    requires d < 10
    ensures IsDigit(c)
  {
    ['0', '1', '2', '3', '4', '5', '6', '7', '8', '9'][d]
  }

  function DigitValue(c: char): (d: nat)
    requires IsDigit(c)
    ensures d < 10
  {
    (c as int - '0' as int) as nat
  }

  /** Shortest decimal form: digits only, no leading zero except for 0. */
  function Decimal(n: nat): (s: string)
    ensures |s| > 0
    ensures forall i :: 0 <= i < |s| ==> IsDigit(s[i])
    ensures s[0] == '0' ==> n == 0
    decreases n
  {
    if n < 10 then [DigitChar(n)] else Decimal(n / 10) + [DigitChar(n % 10)]
  }

  /** Reads a string of digits back as a number. */
  function Value(s: string): nat
    requires forall i :: 0 <= i < |s| ==> IsDigit(s[i])
    decreases |s|
  {
    if |s| == 0 then 0 else Value(s[..|s| - 1]) * 10 + DigitValue(s[|s| - 1])
  }

  lemma DigitRoundTrip(d: nat)
    requires d < 10
    ensures DigitValue(DigitChar(d)) == d
  {
  }

  /** Reading the rendering back gives the number. */
  lemma {:induction false} ValueOfDecimal(n: nat)
    ensures Value(Decimal(n)) == n
    decreases n
  {
    var s := Decimal(n);
    if n < 10 {
      DigitRoundTrip(n);
    } else {
      ValueOfDecimal(n / 10);
      DigitRoundTrip(n % 10);
      assert s[..|s| - 1] == Decimal(n / 10);
    }
  }
}

=== FILE: horizontal_loop.dfy ===
/** The index logic of horizontalLoop: the cursor over the item anchors,
    navigation by index, closest-index resolution and change notification.
    Times are exact reals; the geometry (anchor times and loop duration)
    is an input rather than a DOM measurement. */
module HorizontalLoop {
  import opened Common
  import Nearest

  /** What populateTimeline and populateOffsets leave behind: one time
      anchor per item (`times`) and the timeline's duration. */
  datatype Geometry = Geometry(times: seq<real>, duration: real)
  {
    /** horizontalLoop reads items[0], and its caller returns early when
        there are no items; the duration is positive because items have
        width, and timeWrap divides by it. */
    predicate Valid()
    {
      |times| > 0 && duration > 0.0
    }

    /** Every anchor lies inside one pass of the loop, [0, duration). */
    predicate AnchorsInLoop()
    {
      forall k :: 0 <= k < |times| ==> 0.0 <= times[k] < duration
    }
  }

  /** The variables horizontalLoop keeps between calls, and the timeline's
      playhead `time`. */
  datatype Cursor = Cursor(time: real, curIndex: int, indexIsDirty: bool, lastIndex: int)
  {
    predicate InRange(n: nat)
    {
      0 <= curIndex < n
    }
  }

  /** The state once horizontalLoop returns: progress 0, index 0, clean. */
  const Initial: Cursor := Cursor(0.0, 0, false, 0)

  /** How toIndex moves the playhead: set at once (duration 0) to the
      wrapped target, or a tween towards the target, with the time
      modifier wrapping it when `wrapTime` is set. */
  datatype Motion = Jump | Tween(wrapTime: bool)

  /** The outcome of toIndex: the new cursor, the requested index after
      the shortest-path adjustment, the target time after the seam
      correction, and how the playhead gets there. */
  datatype Navigation = Navigation(cursor: Cursor, adjusted: int, target: real, motion: Motion)

  /** The shortest-path rule of toIndex: a request more than half the loop
      away is replaced by the same slot one loop nearer. */
  function ShortestPath(index: int, cur: int, n: nat): (r: int)
    requires n > 0
    ensures r == index || r == index - n || r == index + n
    ensures r % n == index % n
    ensures IntAbs(index - cur) <= n ==> 2 * IntAbs(r - cur) <= n
    ensures 2 * IntAbs(index - cur) <= n ==> r == index
  {
    if 2 * IntAbs(index - cur) > n then
      if index > cur then
        ModShift(index, n, -1);
        index - n
      else
        ModShift(index, n, 1);
        index + n
    else index
  }

  /** The seam correction of toIndex: when the anchor lies on the other
      side of the playhead from the direction of travel, move it one
      loop in the direction of travel. */
  function SeamTarget(anchor: real, now: real, adjusted: int, cur: int, duration: real): (r: real)
    ensures r == anchor || r == anchor + duration || r == anchor - duration
    ensures adjusted == cur ==> r == anchor
    ensures 0.0 <= anchor < duration && 0.0 <= now < duration ==>
      && (adjusted > cur ==> now < r <= now + duration)
      && (adjusted < cur ==> now - duration < r <= now)
  {
    if (anchor > now) != (adjusted > cur) && adjusted != cur then
      anchor + (if adjusted > cur then duration else -duration)
    else anchor
  }

  /** toIndex(index, vars); `instant` stands for `vars.duration === 0`. */
  function ToIndex(g: Geometry, c: Cursor, index: int, instant: bool): (r: Navigation)
    requires g.Valid()
    ensures r.cursor.InRange(|g.times|)
    ensures r.cursor.curIndex == index % |g.times|
    ensures r.adjusted % |g.times| == index % |g.times|
    ensures IntAbs(index - c.curIndex) <= |g.times| ==> 2 * IntAbs(r.adjusted - c.curIndex) <= |g.times|
    ensures r.cursor.indexIsDirty == c.indexIsDirty && r.cursor.lastIndex == c.lastIndex
    ensures instant <==> r.motion.Jump?
    ensures instant ==> r.cursor.time == Wrap(r.target, g.duration)
    ensures !instant ==> r.cursor.time == c.time
    ensures r.target == g.times[r.cursor.curIndex]
         || r.target == g.times[r.cursor.curIndex] + g.duration
         || r.target == g.times[r.cursor.curIndex] - g.duration
    ensures r.motion.Tween? ==> (r.motion.wrapTime <==> !(0.0 <= r.target <= g.duration))
  {
    var n := |g.times|;
    var adjusted := ShortestPath(index, c.curIndex, n);
    var newIndex := adjusted % n;
    var target := SeamTarget(g.times[newIndex], c.time, adjusted, c.curIndex, g.duration);
    var moved := c.(curIndex := newIndex);
    if instant then
      Navigation(moved.(time := Wrap(target, g.duration)), adjusted, target, Jump)
    else
      Navigation(moved, adjusted, target, Tween(target < 0.0 || target > g.duration))
  }

  /** The seam correction keeps the motion in the chosen direction and
      within one loop: moving forward the target is strictly ahead of the
      playhead and at most one loop ahead, moving back it is not ahead and
      less than one loop behind, and staying put targets the anchor itself. */
  lemma ToIndexDirection(g: Geometry, c: Cursor, index: int, instant: bool)
    requires g.Valid() && g.AnchorsInLoop()
    requires 0.0 <= c.time < g.duration
    ensures var r := ToIndex(g, c, index, instant);
      && (r.adjusted > c.curIndex ==> c.time < r.target <= c.time + g.duration)
      && (r.adjusted < c.curIndex ==> c.time - g.duration < r.target <= c.time)
      && (r.adjusted == c.curIndex ==> r.target == g.times[r.cursor.curIndex])
  {
  }

  lemma SeamTargetWraps(anchor: real, now: real, adjusted: int, cur: int, duration: real)
    requires 0.0 <= anchor < duration
    ensures Wrap(SeamTarget(anchor, now, adjusted, cur, duration), duration) == anchor
  {
    var t := SeamTarget(anchor, now, adjusted, cur, duration);
    if t == anchor {
      WrapUnique(t, duration, 0);
    } else if t == anchor + duration {
      WrapUnique(t, duration, 1);
    } else {
      assert t == anchor - duration;
      WrapUnique(t, duration, -1);
    }
  }

  /** Whatever the direction, the motion ends on the new item's anchor: an
      instant move sets the playhead to it exactly, and a tween's target
      wraps to it. */
  lemma ToIndexLandsOnAnchor(g: Geometry, c: Cursor, index: int, instant: bool)
    requires g.Valid() && g.AnchorsInLoop()
    ensures var r := ToIndex(g, c, index, instant);
      && Wrap(r.target, g.duration) == g.times[r.cursor.curIndex]
      && (instant ==> r.cursor.time == g.times[r.cursor.curIndex])
  {
    var n := |g.times|;
    var adjusted := ShortestPath(index, c.curIndex, n);
    var k := adjusted % n;
    var anchor := g.times[k];
    SeamTargetWraps(anchor, c.time, adjusted, c.curIndex, g.duration);
  }

  /** tl.closestIndex(setCurrent): the anchor nearest the playhead, and
      with `commit` that index becomes curIndex and the dirty flag clears. */
  function ClosestIndex(g: Geometry, c: Cursor, commit: bool): (r: (Cursor, nat))
    ensures |g.times| > 0 ==> r.1 < |g.times|
    ensures Nearest.SomeBelowSentinel(g.times, c.time, g.duration)
      ==> Nearest.IsNearest(g.times, c.time, g.duration, r.1)
    ensures commit ==> r.0 == c.(curIndex := r.1, indexIsDirty := false)
    ensures !commit ==> r.0 == c
  {
    var index := Nearest.GetClosest(g.times, c.time, g.duration);
    if commit then (c.(curIndex := index, indexIsDirty := false), index)
    else (c, index)
  }

  /** tl.current(): curIndex, recomputed and committed first when dirty. */
  function Current(g: Geometry, c: Cursor): (r: (Cursor, int))
    ensures !c.indexIsDirty ==> r == (c, c.curIndex)
    ensures !r.0.indexIsDirty && r.1 == r.0.curIndex
    ensures r.0.time == c.time && r.0.lastIndex == c.lastIndex
    ensures c.indexIsDirty ==> r == ClosestIndex(g, c, true)
    ensures c.indexIsDirty && |g.times| > 0 ==> 0 <= r.1 < |g.times|
    ensures c.indexIsDirty && Nearest.SomeBelowSentinel(g.times, c.time, g.duration)
      ==> Nearest.IsNearest(g.times, c.time, g.duration, r.1)
  {
    if c.indexIsDirty then
      var (c1, i) := ClosestIndex(g, c, true);
      (c1, i)
    else (c, c.curIndex)
  }

  /** tl.next(vars): toIndex(current() + 1). */
  function Next(g: Geometry, c: Cursor, instant: bool): (r: Navigation)
    requires g.Valid()
    ensures !r.cursor.indexIsDirty
    ensures r.cursor.InRange(|g.times|)
    ensures !c.indexIsDirty ==> r.cursor.curIndex == (c.curIndex + 1) % |g.times|
    ensures c.indexIsDirty ==>
      r.cursor.curIndex == (ClosestIndex(g, c, false).1 + 1) % |g.times|
  {
    var (c1, i) := Current(g, c);
    ToIndex(g, c1, i + 1, instant)
  }

  /** tl.previous(vars): toIndex(current() - 1). */
  function Previous(g: Geometry, c: Cursor, instant: bool): (r: Navigation)
    requires g.Valid()
    ensures !r.cursor.indexIsDirty
    ensures r.cursor.InRange(|g.times|)
    ensures !c.indexIsDirty ==> r.cursor.curIndex == (c.curIndex - 1) % |g.times|
    ensures c.indexIsDirty ==>
      r.cursor.curIndex == (ClosestIndex(g, c, false).1 - 1) % |g.times|
  {
    var (c1, i) := Current(g, c);
    ToIndex(g, c1, i - 1, instant)
  }

  /** Releasing a drag near the seam: anchors 0, 2, 4, 6 on a loop of 8,
      released at 7.5. The snap commits the nearest index 0 and asks
      toIndex for that same index, so the seam test is skipped and the
      tween runs backwards to 0 across items 3, 2 and 1. */
  lemma SnapNearSeamGoesLongWay()
    ensures var g := Geometry([0.0, 2.0, 4.0, 6.0], 8.0);
      var c := Cursor(7.5, 3, false, 3);
      var (c1, i) := ClosestIndex(g, c, true);
      && i == 0
      && ToIndex(g, c1, i, false).target == 0.0
      && ToIndex(g, c1, i, false).motion == Tween(false)
  {
  }

  /** The loop as horizontalLoop leaves it: clean, on item 0, and next()
      and previous() move to the neighbours of item 0. */
  lemma InitialIsSettled(g: Geometry, instant: bool)
    requires g.Valid()
    ensures Initial.InRange(|g.times|)
    ensures Current(g, Initial) == (Initial, 0)
    ensures Next(g, Initial, instant).cursor.curIndex == 1 % |g.times|
    ensures Previous(g, Initial, instant).cursor.curIndex == |g.times| - 1
  {
  }

  /** previous() undoes next(), including on a one-item loop. */
  lemma PreviousUndoesNext(g: Geometry, c: Cursor, instant: bool)
    requires g.Valid() && c.InRange(|g.times|) && !c.indexIsDirty
    ensures Previous(g, Next(g, c, instant).cursor, instant).cursor.curIndex == c.curIndex
  {
    var n := |g.times|;
    var i := c.curIndex;
    if i + 1 < n {
      ModUnique(i + 1, n, 0, i + 1);
      ModUnique(i, n, 0, i);
    } else {
      ModUnique(i + 1, n, 1, 0);
      ModUnique(-1, n, -1, n - 1);
    }
  }

  /** The onUpdate handler installed when an onChange callback is given:
      report the closest index when it differs from the last one reported. */
  function OnUpdate(g: Geometry, c: Cursor): (r: (Cursor, Option<nat>))
    ensures r.1.Some? <==> c.lastIndex != ClosestIndex(g, c, false).1
    ensures r.0 == c.(lastIndex := ClosestIndex(g, c, false).1)
    ensures r.1.Some? ==> r.1.value == r.0.lastIndex
  {
    var (_, i) := ClosestIndex(g, c, false);
    if c.lastIndex != i then (c.(lastIndex := i), Some(i)) else (c, None)
  }

  /** A second update at the same playhead reports nothing. */
  lemma OnUpdateSettles(g: Geometry, c: Cursor)
    ensures OnUpdate(g, OnUpdate(g, c).0).1 == None
  {
  }

  /** Runs onUpdate once per rendered frame, the playhead at frames[k] on
      frame k, and collects the indices reported to onChange. */
  function Notifications(g: Geometry, c: Cursor, frames: seq<real>): (r: (Cursor, seq<nat>))
    ensures |r.1| <= |frames|
    ensures forall k :: 0 <= k < |r.1| - 1 ==> r.1[k] != r.1[k + 1]
    ensures |r.1| > 0 ==> r.1[0] != c.lastIndex && r.1[|r.1| - 1] == r.0.lastIndex
    ensures |r.1| == 0 ==> r.0.lastIndex == c.lastIndex
    ensures |frames| > 0 ==>
      r.0.lastIndex == Nearest.GetClosest(g.times, frames[|frames| - 1], g.duration)
    ensures r.0.curIndex == c.curIndex && r.0.indexIsDirty == c.indexIsDirty
    decreases |frames|
  {
    if |frames| == 0 then (c, [])
    else
      var (c1, e) := OnUpdate(g, c.(time := frames[0]));
      var (c2, es) := Notifications(g, c1, frames[1..]);
      (c2, (if e.Some? then [e.value] else []) + es)
  }

  /** The closest index at each frame's playhead. */
  function Closests(g: Geometry, frames: seq<real>): (r: seq<nat>)
    ensures |r| == |frames|
    ensures forall k :: 0 <= k < |frames| ==> r[k] == Nearest.GetClosest(g.times, frames[k], g.duration)
  {
    seq(|frames|, k requires 0 <= k < |frames| => Nearest.GetClosest(g.times, frames[k], g.duration))
  }

  /** The values of `xs` at which it changes, starting from `prev`: each
      run of equal values contributes its value once, and a leading run
      equal to `prev` contributes nothing. */
  function Changes(prev: int, xs: seq<nat>): seq<nat>
    decreases |xs|
  {
    if |xs| == 0 then []
    else (if xs[0] != prev then [xs[0]] else []) + Changes(xs[0], xs[1..])
  }

  /** onChange receives exactly the frames' closest indices with repeats
      and the leading lastIndex removed. */
  lemma {:induction false} NotificationsAreChanges(g: Geometry, c: Cursor, frames: seq<real>)
    ensures Notifications(g, c, frames).1 == Changes(c.lastIndex, Closests(g, frames))
    decreases |frames|
  {
    if |frames| > 0 {
      var c1 := OnUpdate(g, c.(time := frames[0])).0;
      NotificationsAreChanges(g, c1, frames[1..]);
      assert Closests(g, frames)[1..] == Closests(g, frames[1..]);
    }
  }

  /** A navigation during which every frame's closest index is the same k
      reports k once, or not at all if k was the last index reported. */
  lemma {:induction false} SingleNotification(g: Geometry, c: Cursor, frames: seq<real>, k: nat)
    requires |frames| > 0
    requires forall j :: 0 <= j < |frames| ==> Nearest.GetClosest(g.times, frames[j], g.duration) == k
    ensures Notifications(g, c, frames).1 == if c.lastIndex == k then [] else [k]
    decreases |frames|
  {
    var (c1, e) := OnUpdate(g, c.(time := frames[0]));
    assert c1.lastIndex == k;
    if |frames| > 1 {
      SingleNotification(g, c1, frames[1..], k);
    }
  }
}

=== FILE: nearest.dfy ===
/** The carousel's nearest-anchor search (getClosest inside horizontalLoop). */
module Nearest {
  import opened Common

  /** The starting "closest" distance of the scan: an anchor only wins when
      its distance is strictly below it. */
  const Sentinel: real := 10000000000.0

  /** Distance from anchor v to playhead x on a loop of length wrap: the
      plain distance, folded back when it is more than half the loop. */
  function CircularDistance(v: real, x: real, wrap: real): (r: real)
    ensures r <= Abs(v - x) && r <= wrap - Abs(v - x)
    ensures r == Abs(v - x) || r == wrap - Abs(v - x)
    ensures Abs(v - x) <= wrap ==> 0.0 <= r <= wrap / 2.0
  {
    var d := Abs(v - x);
    if d > wrap / 2.0 then wrap - d else d
  }

  function Dist(values: seq<real>, x: real, wrap: real, j: int): real
    requires 0 <= j < |values|
  {
    CircularDistance(values[j], x, wrap)
  }

  /** Every anchor below index i is at least `closest` away. */
  ghost predicate NoneCloser(values: seq<real>, x: real, wrap: real, i: nat, closest: real)
    requires i <= |values|
  {
    forall j :: 0 <= j < i ==> closest <= Dist(values, x, wrap, j)
  }

  /** Among the anchors below index i, k is strictly nearer than `closest`,
      no other is nearer, and every later one is strictly farther. */
  ghost predicate BestBelow(values: seq<real>, x: real, wrap: real, i: nat, k: nat, closest: real)
    requires i <= |values|
  {
    && k < i
    && Dist(values, x, wrap, k) < closest
    && (forall j :: 0 <= j < i ==> Dist(values, x, wrap, k) <= Dist(values, x, wrap, j))
    && (forall j :: k < j < i ==> Dist(values, x, wrap, k) < Dist(values, x, wrap, j))
  }

  /** Reference definition of the answer: k is a nearest anchor and the
      highest index among those tied for nearest. */
  ghost predicate IsNearest(values: seq<real>, x: real, wrap: real, k: nat)
  {
    && k < |values|
    && (forall j :: 0 <= j < |values| ==> Dist(values, x, wrap, k) <= Dist(values, x, wrap, j))
    && (forall j :: k < j < |values| ==> Dist(values, x, wrap, k) < Dist(values, x, wrap, j))
  }

  /** Some anchor is strictly closer than the sentinel, so the scan picks one. */
  ghost predicate SomeBelowSentinel(values: seq<real>, x: real, wrap: real)
  {
    exists j :: 0 <= j < |values| && Dist(values, x, wrap, j) < Sentinel
  }

  /** The `while (i--)` loop: indices i-1 down to 0 are still to be looked
      at; `closest` and `index` are the loop variables so far. */
  function Scan(values: seq<real>, x: real, wrap: real, i: nat, closest: real, index: nat): (r: nat)
    requires i <= |values|
    ensures (r == index && NoneCloser(values, x, wrap, i, closest))
         || BestBelow(values, x, wrap, i, r, closest)
    decreases i
  {
    if i == 0 then index
    else
      var d := Dist(values, x, wrap, i - 1);
      if d < closest then Scan(values, x, wrap, i - 1, d, i - 1)
      else Scan(values, x, wrap, i - 1, closest, index)
  }

  /** getClosest(values, value, wrap). */
  function GetClosest(values: seq<real>, x: real, wrap: real): (r: nat)
    ensures |values| == 0 ==> r == 0
    ensures |values| > 0 ==> r < |values|
    ensures SomeBelowSentinel(values, x, wrap) ==> IsNearest(values, x, wrap, r)
    ensures !SomeBelowSentinel(values, x, wrap) ==> r == 0
  {
    Scan(values, x, wrap, |values|, Sentinel, 0)
  }

  /** At most one index is the tie-broken nearest one. */
  lemma NearestUnique(values: seq<real>, x: real, wrap: real, k1: nat, k2: nat)
    requires IsNearest(values, x, wrap, k1) && IsNearest(values, x, wrap, k2)
    ensures k1 == k2
  {
    var d1, d2 := Dist(values, x, wrap, k1), Dist(values, x, wrap, k2);
    assert d1 == d2;
    assert k1 < k2 ==> d1 < d2;
    assert k2 < k1 ==> d2 < d1;
  }

  /** The search agrees with the reference definition in both directions:
      whenever some anchor is within the sentinel, GetClosest returns k
      exactly when k is the highest-indexed nearest anchor. */
  lemma GetClosestIsNearest(values: seq<real>, x: real, wrap: real, k: nat)
    requires SomeBelowSentinel(values, x, wrap)
    ensures GetClosest(values, x, wrap) == k <==> IsNearest(values, x, wrap, k)
  {
  }

  /** Anchors 0, 2, 4, 6 on a loop of 8 with the playhead at 7: anchors 0
      and 6 are both 1 away, and the downward scan keeps index 3. */
  lemma TieGoesToHighestIndex()
    ensures GetClosest([0.0, 2.0, 4.0, 6.0], 7.0, 8.0) == 3
  {
  }
}

=== FILE: onboarding.dfy ===
/** The onboarding form's step machine: currentStep, the per-step checks,
    step navigation, auto-advance on selection, and the view showStep
    derives from the step. */
module Onboarding {
  import opened Common
  import DecimalText

  const TotalSteps: nat := 4

  /** The checked inputs the handlers read from the page: goal checkboxes
      in page order, the experience radio, the training-preference radio. */
  datatype Selection = Selection(goals: seq<string>, experience: Option<string>, preference: Option<string>)

  /** currentStep (0 before the form starts) together with the selection. */
  datatype Form = Form(step: nat, selection: Selection)

  /** isStepValid(step): a step's requirement on the selection. Only the
      three question steps can fail. */
  function IsStepValid(step: int, sel: Selection): (b: bool)
    ensures !(1 <= step < TotalSteps) ==> b
  {
    if step == 1 then |sel.goals| > 0
    else if step == 2 then sel.experience.Some?
    else if step == 3 then sel.preference.Some?
    else true
  }

  /** Each step's validity reads only that step's own question. */
  lemma StepValidityIsLocal(sel: Selection, goals: seq<string>, e: Option<string>, p: Option<string>)
    ensures IsStepValid(1, sel) == IsStepValid(1, sel.(experience := e, preference := p))
    ensures IsStepValid(2, sel) == IsStepValid(2, sel.(goals := goals, preference := p))
    ensures IsStepValid(3, sel) == IsStepValid(3, sel.(goals := goals, experience := e))
  {
  }

  /** The outcome of validateCurrentStep: pass, or the error shown under
      the step. */
  datatype Validation = Valid | Invalid(step: nat, message: string)

  /** validateCurrentStep(), written separately from isStepValid in the
      source; the two agree on every step and selection. */
  function ValidateCurrentStep(step: nat, sel: Selection): (v: Validation)
    ensures v.Valid? <==> IsStepValid(step, sel)
    ensures v.Invalid? ==> v.step == step && 1 <= step < TotalSteps && |v.message| > 0
  {
    if step == 1 && |sel.goals| == 0 then
      Invalid(1, "Selecteer minstens één doel om verder te gaan.")
    else if step == 2 && sel.experience.None? then
      Invalid(2, "Kies je huidige ervaring niveau om door te gaan.")
    else if step == 3 && sel.preference.None? then
      Invalid(3, "Selecteer je trainingsvoorkeur om verder te gaan.")
    else Valid
  }

  /** nextStep(): advance one step when the current step validates. There
      is no upper bound here: from the last step it moves past it. */
  function NextStep(f: Form): (r: (Form, Validation))
    ensures r.1.Valid? <==> IsStepValid(f.step, f.selection)
    ensures r.0.selection == f.selection
    ensures r.0.step == f.step + 1 <==> IsStepValid(f.step, f.selection)
    ensures r.0.step == f.step <==> !IsStepValid(f.step, f.selection)
  {
    var v := ValidateCurrentStep(f.step, f.selection);
    if v.Valid? then (f.(step := f.step + 1), v) else (f, v)
  }

  /** nextStep from the last step goes to step 5. */
  lemma NextStepHasNoCap(sel: Selection)
    ensures NextStep(Form(TotalSteps, sel)).0.step == TotalSteps + 1
  {
  }

  /** previousStep(): back one step, never below step 1. */
  function PreviousStep(f: Form): (r: Form)
    ensures r.selection == f.selection
    ensures r.step == f.step - 1 || r == f
    ensures f.step >= 1 ==> r.step >= 1
    ensures r.step < f.step <==> f.step > 1
  {
    if f.step > 1 then f.(step := f.step - 1) else f
  }

  /** The change that triggers auto-advance: a radio button, or a goal
      checkbox together with whether any box of its group is checked. */
  datatype Trigger = RadioChanged | CheckboxChanged(anyChecked: bool)

  /** The delayed callback autoAdvanceOnSelection schedules: call nextStep
      only while the form is before its last step. */
  function AutoAdvance(f: Form, t: Trigger): (r: Form)
    ensures f.step >= TotalSteps ==> r == f
    ensures r == f || r.step == f.step + 1
    ensures r.step == f.step + 1 <==>
      (t.RadioChanged? || t.anyChecked) && f.step < TotalSteps && IsStepValid(f.step, f.selection)
    ensures r.selection == f.selection
  {
    var scheduled := t.RadioChanged? || t.anyChecked;
    if scheduled && f.step < TotalSteps then NextStep(f).0 else f
  }

  /** What showStep(step) renders. */
  datatype StepView = StepView(
    translatePercent: int,
    progressWidth: real,
    progressText: string,
    prevVisible: bool,
    nextVisible: bool,
    submitVisible: bool)

  const ProgressPrefix: string := "Stap "
  const ProgressSuffix: string := " van 4"

  /** showStep(step): the sliding offset, the progress bar and text, and
      which buttons are shown. */
  function ShowStep(step: nat): (v: StepView)
    ensures v.translatePercent == -25 * (step - 1)
    ensures v.progressWidth * (TotalSteps as real) == step as real * 100.0
    ensures v.prevVisible <==> step != 1
    ensures v.nextVisible <==> step != TotalSteps
    ensures v.submitVisible <==> !v.nextVisible
    ensures |v.progressText| > |ProgressPrefix| + |ProgressSuffix|
    ensures v.progressText[..|ProgressPrefix|] == ProgressPrefix
    ensures v.progressText[|v.progressText| - |ProgressSuffix|..] == ProgressSuffix
    ensures var digits := v.progressText[|ProgressPrefix|..|v.progressText| - |ProgressSuffix|];
      && (forall i :: 0 <= i < |digits| ==> DecimalText.IsDigit(digits[i]))
      && DecimalText.Value(digits) == step
  {
    var text := ProgressPrefix + DecimalText.Decimal(step) + ProgressSuffix;
    DecimalText.ValueOfDecimal(step);
    assert text[|ProgressPrefix|..|text| - |ProgressSuffix|] == DecimalText.Decimal(step);
    StepView(
      -((step - 1) * 25),
      (step as real / TotalSteps as real) * 100.0,
      text,
      step != 1,
      step != TotalSteps,
      step == TotalSteps)
  }

  /** The user's actions on the form: the next and previous buttons (a
      click only lands while showStep displays the button), the
      auto-advance callback (each stacked set of listeners startForm
      installs adds more of these), and the reset after a submission. */
  datatype Action = ClickNext | ClickPrevious | Auto(t: Trigger) | SubmitReset

  /** What the submit handler's delayed reset leaves: form.reset() clears
      every input, and the step returns to 1. */
  const Cleared: Selection := Selection([], None, None)

  function Apply(f: Form, a: Action): Form
  {
    match a
    case ClickNext => if ShowStep(f.step).nextVisible then NextStep(f).0 else f
    case ClickPrevious => if ShowStep(f.step).prevVisible then PreviousStep(f) else f
    case Auto(t) => AutoAdvance(f, t)
    case SubmitReset => Form(1, Cleared)
  }

  function Run(f: Form, actions: seq<Action>): Form
    decreases |actions|
  {
    if |actions| == 0 then f else Run(Apply(f, actions[0]), actions[1..])
  }

  /** One action keeps a started form within steps 1..4: only the hidden
      next button and the auto-advance guard stop nextStep at the end. */
  lemma ApplyKeepsStepInRange(f: Form, a: Action)
    requires 1 <= f.step <= TotalSteps
    ensures 1 <= Apply(f, a).step <= TotalSteps
  {
  }

  /** Any sequence of actions from startForm keeps the step within 1..4. */
  lemma {:induction false} RunKeepsStepInRange(f: Form, actions: seq<Action>)
    requires 1 <= f.step <= TotalSteps
    ensures 1 <= Run(f, actions).step <= TotalSteps
    decreases |actions|
  {
    if |actions| > 0 {
      ApplyKeepsStepInRange(f, actions[0]);
      RunKeepsStepInRange(Apply(f, actions[0]), actions[1..]);
    }
  }
}

=== FILE: onboarding_email.dfy ===
/** generateEmailContent: the plain-text body of the onboarding e-mail. */
module OnboardingEmail {
  import opened Common

  /** The object formatFormData builds from the page; the timestamp is
      already formatted text. */
  datatype FormData = FormData(
    timestamp: string,
    goals: seq<string>,
    experience: Option<string>,
    trainingPreference: Option<string>,
    personalMessage: string)

  // ---------------------------------------------------------------------
  // Goal lines
  // ---------------------------------------------------------------------

  predicate IsLowerAscii(c: char)
  {
    'a' <= c <= 'z'
  }

  /** toUpperCase on one character, for ASCII letters. */
  function UpperAscii(c: char): (r: char)
    ensures IsLowerAscii(c) ==> 'A' <= r <= 'Z' && r as int == c as int - 32
    ensures !IsLowerAscii(c) ==> r == c
  {
    if IsLowerAscii(c) then (c as int - 32) as char else c
  }

  /** Position i holds the first occurrence of c in s. */
  predicate IsFirst(s: string, c: char, i: nat)
    requires i < |s|
  {
    s[i] == c && forall j :: 0 <= j < i ==> s[j] != c
  }

  /** String.prototype.replace with a one-character string pattern: only
      the first occurrence of `from` becomes `to`. */
  function ReplaceFirst(s: string, from: char, to: char): (r: string)
    ensures |r| == |s|
    ensures forall i :: 0 <= i < |s| ==> r[i] == if IsFirst(s, from, i) then to else s[i]
    ensures from !in s ==> r == s
    decreases |s|
  {
    if |s| == 0 then s
    else if s[0] == from then [to] + s[1..]
    else [s[0]] + ReplaceFirst(s[1..], from, to)
  }

  const Bullet: string := "• "

  /** One line of the goals list: a bullet, the goal's first character in
      upper case, and the rest with its first hyphen turned into a space. */
  function GoalLine(goal: string): (r: string)
    ensures |r| == |goal| + |Bullet|
    ensures r[..|Bullet|] == Bullet
    ensures |goal| > 0 ==> r[|Bullet|] == UpperAscii(goal[0])
    ensures forall i :: 1 <= i < |goal| ==>
      r[i + |Bullet|] == if IsFirst(goal[1..], '-', i - 1) then ' ' else goal[i]
    ensures '\n' !in goal ==> '\n' !in r
  {
    var first := if |goal| == 0 then "" else [UpperAscii(goal[0])];
    var rest := if |goal| == 0 then "" else ReplaceFirst(goal[1..], '-', ' ');
    Bullet + first + rest
  }

  /** Array.prototype.join with a one-character separator. */
  function Join(lines: seq<string>, sep: char): string
    decreases |lines|
  {
    if |lines| == 0 then ""
    else if |lines| == 1 then lines[0]
    else lines[0] + [sep] + Join(lines[1..], sep)
  }

  /** String.prototype.split with a one-character separator. */
  function Split(s: string, sep: char): (r: seq<string>)
    ensures |r| > 0
    decreases |s|
  {
    if |s| == 0 then [""]
    else
      var rest := Split(s[1..], sep);
      if s[0] == sep then [""] + rest
      else [[s[0]] + rest[0]] + rest[1..]
  }

  lemma {:induction false} SplitWithoutSeparator(a: string, sep: char)
    requires sep !in a
    ensures Split(a, sep) == [a]
    decreases |a|
  {
    if |a| > 0 {
      SplitWithoutSeparator(a[1..], sep);
      assert [a[0]] + a[1..] == a;
    }
  }

  lemma {:induction false} SplitAtFirstSeparator(a: string, b: string, sep: char)
    requires sep !in a
    ensures Split(a + [sep] + b, sep) == [a] + Split(b, sep)
    decreases |a|
  {
    var s := a + [sep] + b;
    if |a| == 0 {
      assert s[1..] == b;
    } else {
      assert s[1..] == a[1..] + [sep] + b;
      SplitAtFirstSeparator(a[1..], b, sep);
      assert [a[0]] + a[1..] == a;
    }
  }

  /** Splitting the joined lines gives the lines back, when none of them
      contains the separator. */
  lemma {:induction false} SplitJoin(lines: seq<string>, sep: char)
    requires |lines| > 0
    requires forall k :: 0 <= k < |lines| ==> sep !in lines[k]
    ensures Split(Join(lines, sep), sep) == lines
    decreases |lines|
  {
    if |lines| == 1 {
      SplitWithoutSeparator(lines[0], sep);
    } else {
      SplitJoin(lines[1..], sep);
      SplitAtFirstSeparator(lines[0], Join(lines[1..], sep), sep);
    }
  }

  function GoalLines(goals: seq<string>): (r: seq<string>)
    ensures |r| == |goals|
    ensures forall k :: 0 <= k < |goals| ==> r[k] == GoalLine(goals[k])
  {
    seq(|goals|, k requires 0 <= k < |goals| => GoalLine(goals[k]))
  }

  /** goalsList: the goal lines joined by newlines. */
  function GoalsList(goals: seq<string>): string
  {
    Join(GoalLines(goals), '\n')
  }

  /** The goals list holds exactly one line per goal, in order, each the
      goal's GoalLine, whenever there is a goal and none contains a
      newline. */
  lemma GoalsListLines(goals: seq<string>)
    requires |goals| > 0
    requires forall k :: 0 <= k < |goals| ==> '\n' !in goals[k]
    ensures var lines := Split(GoalsList(goals), '\n');
      && |lines| == |goals|
      && forall k :: 0 <= k < |goals| ==> lines[k] == GoalLine(goals[k])
  {
    SplitJoin(GoalLines(goals), '\n');
  }

  // ---------------------------------------------------------------------
  // Code lookups
  // ---------------------------------------------------------------------

  const ExperienceMap: map<string, string> := map[
    "beginner" := "Beginner (Weinig tot geen sportervaring)",
    "intermediate" := "Gemiddeld (Enige ervaring met sporten/fitness)",
    "advanced" := "Gevorderd (Veel ervaring en kennis)"]

  const PreferenceMap: map<string, string> := map[
    "thuis" := "Thuis trainen (Met minimale apparatuur)",
    "gym" := "In de sportschool (Met volledige uitrusting)",
    "hybrid" := "Combinatie (Zowel thuis als gym)"]

  /** How a possibly undefined value prints inside a template literal. */
  function TemplateText(v: Option<string>): string
  {
    match v
    case Some(s) => s
    case None => "undefined"
  }

  /** `lookup[code] || code`: the mapped text when there is a non-empty
      one, otherwise the code itself. */
  function Describe(lookup: map<string, string>, code: Option<string>): (r: string)
    ensures code.Some? && code.value in lookup && lookup[code.value] != "" ==> r == lookup[code.value]
    ensures code.Some? && code.value !in lookup ==> r == code.value
    ensures code.None? && "undefined" !in lookup ==> r == "undefined"
  {
    var key := TemplateText(code);
    var hit := if key in lookup then lookup[key] else "";
    if hit != "" then hit else TemplateText(code)
  }

  /** No two codes share a text and no text is empty. */
  ghost predicate Descriptive(lookup: map<string, string>)
  {
    && (forall c :: c in lookup ==> lookup[c] != "")
    && (forall c1, c2 :: c1 in lookup && c2 in lookup && c1 != c2 ==> lookup[c1] != lookup[c2])
  }

  /** With a descriptive map, the rendered text identifies the code, for
      every code that is not itself one of the map's texts. */
  lemma DescribeIdentifiesCode(lookup: map<string, string>, c1: string, c2: string)
    requires Descriptive(lookup)
    requires c1 !in lookup.Values && c2 !in lookup.Values
    requires Describe(lookup, Some(c1)) == Describe(lookup, Some(c2))
    ensures c1 == c2
  {
  }

  /** Both lookup maps of the e-mail are descriptive. */
  lemma LookupsAreDescriptive()
    ensures Descriptive(ExperienceMap) && Descriptive(PreferenceMap)
  {
    assert "beginner" != "advanced" by { assert "beginner"[0] != "advanced"[0]; }
    assert "beginner" != "intermediate" && "intermediate" != "advanced";
    assert "thuis" != "gym" && "thuis" != "hybrid" && "gym" != "hybrid";
    assert |ExperienceMap["beginner"]| == 40;
    assert |ExperienceMap["intermediate"]| == 46;
    assert |ExperienceMap["advanced"]| == 35;
    assert |PreferenceMap["thuis"]| == 39;
    assert |PreferenceMap["gym"]| == 44;
    assert |PreferenceMap["hybrid"]| == 32;
  }

  const NoMessage: string := "Geen bericht toegevoegd."

  /** `personalMessage || 'Geen bericht toegevoegd.'`. */
  function MessageText(msg: string): (r: string)
    ensures r != ""
    ensures msg != "" ==> r == msg
    ensures msg == "" ==> r == NoMessage
  {
    if msg != "" then msg else NoMessage
  }

  // ---------------------------------------------------------------------
  // The body
  // ---------------------------------------------------------------------

  const Rule: string := "========================================"
  const Title: string := "NIEUWE ONBOARDING AANVRAAG - FITLIKE NIGEL"
  const Signature: string := "Dit bericht is automatisch gegenereerd via de onboarding pagina van fitlikenigel.nl"

  /** The lines of the template literal between its opening and closing
      lines, in order. */
  function BodyLines(f: FormData): seq<string>
  {
    [ Title,
      Rule,
      "",
      "Datum: " + f.timestamp,
      "",
      "DOELEN:",
      GoalsList(f.goals),
      "",
      "ERVARING:",
      Describe(ExperienceMap, f.experience),
      "",
      "TRAININGSVOORKEUR:",
      Describe(PreferenceMap, f.trainingPreference),
      "",
      "PERSOONLIJK BERICHT:",
      MessageText(f.personalMessage),
      "",
      Rule,
      Signature ]
  }

  /** The template literal before `.trim()`: it opens with an empty line
      (right after the backtick) and closes with the indentation of the
      line holding the closing backtick. */
  function Template(f: FormData): string
  {
    Join([""] + (BodyLines(f) + ["    "]), '\n')
  }

  /** White space and line terminators, the characters trim removes. */
  predicate IsTrimmable(c: char)
  {
    || c == '\t' || c == '\n' || c == '\U{000B}' || c == '\U{000C}' || c == '\r' || c == ' '
    || c == '\U{00A0}' || c == '\U{1680}' || ('\U{2000}' <= c <= '\U{200A}')
    || c == '\U{2028}' || c == '\U{2029}' || c == '\U{202F}' || c == '\U{205F}'
    || c == '\U{3000}' || c == '\U{FEFF}'
  }

  function TrimStart(s: string): (r: string)
    ensures |r| <= |s| && r == s[|s| - |r|..]
    ensures forall i :: 0 <= i < |s| - |r| ==> IsTrimmable(s[i])
    ensures |r| > 0 ==> !IsTrimmable(r[0])
    decreases |s|
  {
    if |s| > 0 && IsTrimmable(s[0]) then TrimStart(s[1..]) else s
  }

  function TrimEnd(s: string): (r: string)
    ensures |r| <= |s| && r == s[..|r|]
    ensures forall i :: |r| <= i < |s| ==> IsTrimmable(s[i])
    ensures |r| > 0 ==> !IsTrimmable(r[|r| - 1])
    decreases |s|
  {
    if |s| > 0 && IsTrimmable(s[|s| - 1]) then TrimEnd(s[..|s| - 1]) else s
  }

  /** String.prototype.trim. */
  function Trim(s: string): string
  {
    TrimEnd(TrimStart(s))
  }

  /** generateEmailContent(formData). The e-mail is the template's lines
      from the title to the signature joined by newlines: the trim takes
      away only the template's own empty first line and indented last
      line, never any of the form's data, whatever the data holds. */
  function GenerateEmailContent(f: FormData): (r: string)
    ensures r == Join(BodyLines(f), '\n')
  {
    var lines := BodyLines(f);
    assert lines[0][0] == 'N';
    assert lines[|lines| - 1] == Signature;
    assert Signature[|Signature| - 1] == 'l';
    TrimFramedLines(lines, "    ");
    Trim(Template(f))
  }

  lemma {:induction false} JoinSnoc(lines: seq<string>, last: string, sep: char)
    requires |lines| > 0
    ensures Join(lines + [last], sep) == Join(lines, sep) + [sep] + last
    decreases |lines|
  {
    if |lines| > 1 {
      assert (lines + [last])[1..] == lines[1..] + [last];
      JoinSnoc(lines[1..], last, sep);
    }
  }

  lemma {:induction false} TrimStartBorder(lead: string, rest: string)
    requires forall i :: 0 <= i < |lead| ==> IsTrimmable(lead[i])
    requires |rest| > 0 && !IsTrimmable(rest[0])
    ensures TrimStart(lead + rest) == rest
    decreases |lead|
  {
    if |lead| > 0 {
      assert (lead + rest)[1..] == lead[1..] + rest;
      TrimStartBorder(lead[1..], rest);
    }
  }

  lemma {:induction false} TrimEndBorder(rest: string, trail: string)
    requires forall i :: 0 <= i < |trail| ==> IsTrimmable(trail[i])
    requires |rest| > 0 && !IsTrimmable(rest[|rest| - 1])
    ensures TrimEnd(rest + trail) == rest
    decreases |trail|
  {
    if |trail| > 0 {
      var s := rest + trail;
      assert s[|s| - 1] == trail[|trail| - 1];
      assert s[..|s| - 1] == rest + trail[..|trail| - 1];
      TrimEndBorder(rest, trail[..|trail| - 1]);
    }
  }

  /** Trimming a text that starts and ends with a visible character
      inside a blank border removes exactly that border. */
  lemma TrimBorder(lead: string, body: string, trail: string)
    requires forall i :: 0 <= i < |lead| ==> IsTrimmable(lead[i])
    requires forall i :: 0 <= i < |trail| ==> IsTrimmable(trail[i])
    requires |body| > 0 && !IsTrimmable(body[0]) && !IsTrimmable(body[|body| - 1])
    ensures Trim(lead + body + trail) == body
  {
    assert lead + body + trail == lead + (body + trail);
    TrimStartBorder(lead, body + trail);
    TrimEndBorder(body, trail);
  }

  lemma JoinFirstChar(lines: seq<string>, sep: char)
    requires |lines| > 0 && |lines[0]| > 0
    ensures |Join(lines, sep)| > 0 && Join(lines, sep)[0] == lines[0][0]
  {
  }

  lemma JoinLastChar(lines: seq<string>, sep: char)
    requires |lines| > 0 && |lines[|lines| - 1]| > 0
    ensures var j := Join(lines, sep); |j| > 0 && j[|j| - 1] == lines[|lines| - 1][|lines[|lines| - 1]| - 1]
  {
  }

  lemma JoinCons(first: string, rest: seq<string>, sep: char)
    requires |rest| > 0
    ensures Join([first] + rest, sep) == first + [sep] + Join(rest, sep)
  {
  }

  lemma JoinFramed(lines: seq<string>, indent: string)
    requires |lines| > 0
    ensures Join([""] + (lines + [indent]), '\n') == "\n" + Join(lines, '\n') + ("\n" + indent)
  {
    var tail := lines + [indent];
    JoinCons("", tail, '\n');
    JoinSnoc(lines, indent, '\n');
    var t, j := Join(tail, '\n'), Join(lines, '\n');
    assert Join([""] + tail, '\n') == "" + ['\n'] + t;
    assert t == j + ['\n'] + indent;
    Reassociate(j, indent);
  }

  lemma Reassociate(j: string, indent: string)
    ensures "" + ['\n'] + (j + ['\n'] + indent) == "\n" + j + ("\n" + indent)
  {
  }

  /** Trimming lines framed by an empty first line and a blank last line
      leaves the inner lines, when those start and end with visible text. */
  lemma TrimFramedLines(lines: seq<string>, indent: string)
    requires |lines| > 0 && |lines[0]| > 0 && |lines[|lines| - 1]| > 0
    requires !IsTrimmable(lines[0][0])
    requires !IsTrimmable(lines[|lines| - 1][|lines[|lines| - 1]| - 1])
    requires forall i :: 0 <= i < |indent| ==> IsTrimmable(indent[i])
    ensures Trim(Join([""] + (lines + [indent]), '\n')) == Join(lines, '\n')
  {
    var body := Join(lines, '\n');
    JoinFramed(lines, indent);
    JoinFirstChar(lines, '\n');
    JoinLastChar(lines, '\n');
    TrimBorder("\n", body, "\n" + indent);
  }
}

=== FILE: testimonial_drag.dfy ===
/** The progress arithmetic of the reviews slider's onDrag handler. */
module TestimonialDrag {

  /** Progress change per container width dragged. */
  const Sensitivity: real := 0.3

  /** The one-step wrap onDrag applies: below 0 add a loop, above 1
      subtract one, otherwise leave it. */
  function WrapProgress(p: real): (r: real)
    ensures r == p || r == p + 1.0 || r == p - 1.0
    ensures -1.0 <= p <= 2.0 ==> 0.0 <= r <= 1.0
    ensures 0.0 <= p <= 1.0 ==> r == p
  {
    if p < 0.0 then p + 1.0
    else if p > 1.0 then p - 1.0
    else p
  }

  /** onDrag: the progress the loop is set to when the pointer has moved
      `dx` pixels since the drag started at `start`, over a container
      `width` pixels wide. */
  function DragProgress(start: real, dx: real, width: real): (r: real)
    requires width > 0.0
    ensures r - (start - (dx / width) * Sensitivity) in {-1.0, 0.0, 1.0}
    ensures 0.0 <= start <= 1.0 && -width <= dx * Sensitivity <= width ==> 0.0 <= r <= 1.0
    ensures dx == 0.0 && 0.0 <= start <= 1.0 ==> r == start
  {
    WrapProgress(start - (dx / width) * Sensitivity)
  }

  /** A drag that starts inside the loop and moves less than
      width / Sensitivity pixels keeps the progress in [0, 1], one loop
      away at most from the unwrapped value; dragging right lowers the
      progress and dragging left raises it, modulo that loop. */
  lemma DragStaysInLoop(start: real, dx: real, width: real)
    requires width > 0.0
    requires 0.0 <= start <= 1.0
    requires -width <= dx * Sensitivity <= width
    ensures 0.0 <= DragProgress(start, dx, width) <= 1.0
    ensures var raw := start - (dx / width) * Sensitivity;
      DragProgress(start, dx, width) - raw in {-1.0, 0.0, 1.0}
  {
  }
}
